=== FILE: README.md ===
# Spanish TTS voice store — Dafny model

This project models the core of a small Spanish text-to-speech app (`spanish_tts_app.py`). That core is two things.

- **Voice-profile store.** A JSON registry `voices/voices.json` maps each voice name to `{audio, transcript}`. The reference-audio files are copied into `voices/` next to it. The operations are `load_voices`, `save_voices`, `voice_names`, `save_voice`, `delete_voice` and `voices_table_md`.
- **Synthesis front end.** `on_voice_select` fills the reference fields from a saved voice. `generate_audio` validates a request and hands it to the speech model.

The state is a `Store`, which has two parts:

- `document`: the registry as last written. It is absent until the first save. Writing it to JSON and reading it back is treated as the identity.
- `files`: the set of files present. Each file is named by its location string, relative to the application directory. Location `loc` is the file at `os.path.join(appDir, loc)`, so an absolute location names itself. Two different location strings count as two different files, even when they resolve to the same path (see "Absolute names alias" below).

The registry is an insertion-ordered dictionary (`OrderedMap`): a sequence of bindings with distinct keys. Every operation is a pure function of the state and its inputs. The two operations that change the state, `save_voice` and `delete_voice`, return a `Step`, which carries:

- the new state;
- the reply (status text plus the dropdown update), or the exception that escaped;
- the external calls made, in order.

The others return their Python result directly: `on_voice_select` returns a value or the exception that escaped (`Result`). `generate_audio` returns a `Generation`: that `Result` together with the model calls made, in order. The rest return plain values.

The external capabilities are passed in as function parameters, and nothing about them is assumed:

- `transcribe` for `transcribe(audio, language="es")`;
- `preprocess` for `preprocess_ref_audio_text(..., language="es")`;
- `infer` for `infer_process` with the loaded model and vocoder.

Modules follow the layers of the program:

- `Common`: `None`, exceptions, recorded calls.
- `PyStr`: `str.isspace`, `strip`, `[:n]`, `"\n".join`. The program never splits a string; `split("\n")` is defined only as the inverse that pins down what `"\n".join` produces.
- `PosixPath`: `os.path.join`, `os.path.splitext`.
- `OrderedMap`: `dict`.
- `VoiceStore`: the registry and files, save and delete.
- `VoiceTable`: the Markdown table.
- `Synthesis`: voice selection and generation.

Beyond the contracts of the individual operations, the model proves three whole-store facts:

- **Referential integrity.** Every registered voice is complete, its name is what `OwnerName` recovers from its audio location string (so no two voices share one), and that location is among the files present. `save_voice` and `delete_voice` both preserve this (`Integrity`). This holds up to location strings: two voices whose different locations resolve to one path are not caught (see "Absolute names alias").
- **Copy and record agree.** The copy is written to `join(VOICES_DIR, name + ext)`, and the record stores `join("voices", name + ext)`. Because `os.path.join` is associative, these name the same file. So a voice selected after saving resolves to the file the save copied.
- **Orphan files.** Re-saving a name from a source with another extension leaves the first copy on disk with no voice referring to it. The code computes and copies only the new destination.

Behaviours of the code that the model keeps:

- **Orphans on re-save.** Re-saving a name from a source with another extension leaves the earlier copy on disk (`ResaveWithOtherExtLeavesOrphan`).
- **Blank transcripts.** The stored transcript is whatever the transcription returns, even if blank. It is not guaranteed to be non-empty.
- **Names are not sanitised.** A name that is an absolute path is stored, and copied to, as that path plus the extension; its location string does not start with `voices/` (`AbsoluteNameLocation`).
- **Absolute names alias.** An absolute name can point back into the voices directory. With `appDir` `/app`, the voices `b` and `/app/voices/b` are stored as `voices/b.wav` and `/app/voices/b.wav`. Both resolve and copy to `/app/voices/b.wav` (`AbsoluteNameAliasesVoice`). Saving the second overwrites the first one's audio. Deleting either removes the file the other still refers to.
- **A save can overwrite the registry.** The voice `voices` saved from a `.json` source is copied to `voices/voices.json`, the registry document itself (`RegistryNameCollides`). `copy2` overwrites the registry with the clip, and the next `load_voices` fails to parse it. The model keeps the document apart from the files, so it treats this as an ordinary save.
- **`delete_voice` does not strip its argument.** Only `save_voice` strips the name.
- **Entry without `"audio"`.** Deleting such an entry resolves `join(appDir, "")`, which is the application directory itself (`appDir`, `os.path.dirname(__file__)`, is taken to be absolute). It exists, so `os.remove` raises and nothing changes. The model gives Linux's `IsADirectoryError: [Errno 21] Is a directory` naming that path.
- **Multi-line transcripts break the table.** A transcript may hold newlines (its text box has two lines). Its preview then spills a row of the Markdown table over several lines.

## Model

| member | source | states |
|---|---|---|
| `VoiceStore.LoadVoices` | spanish_tts_app.py:46-50 | with no document the registry is empty; otherwise it is the document as last written |
| `OrderedMap.Keys` | spanish_tts_app.py:58-59 | the key list has exactly one entry per binding |
| `OrderedMap.KeysAt` | spanish_tts_app.py:58-59 | position `i` of the key list is the key of the `i`-th binding, so the keys come in insertion order |
| `OrderedMap.Get` | spanish_tts_app.py:70-72 | `d.get(k)` finds a value exactly when `k` is one of the dict's keys, and gives `None` otherwise |
| `OrderedMap.GetAt` | spanish_tts_app.py:108 | in a dict, looking up the key of any binding returns that binding's value |
| `OrderedMap.Put` | spanish_tts_app.py:132-135 | `d[k] = v` binds `k` to `v` and leaves every other key's value alone; an existing key keeps its position, a new key is appended |
| `OrderedMap.PutDistinct` | spanish_tts_app.py:132-135 | assignment keeps every key bound at most once |
| `OrderedMap.Remove` | spanish_tts_app.py:156 | after `del d[k]`, `k` is unbound and every other key keeps its value; `Remove` of an absent key returns the dict unchanged, while the program deletes only a present key (line 147) |
| `OrderedMap.RemoveCutsOut` | spanish_tts_app.py:156 | in a dict, `del d[k]` cuts out exactly the one binding of `k` and keeps the rest in order |
| `OrderedMap.RemoveDistinct` | spanish_tts_app.py:156 | deletion keeps every key bound at most once |
| `PyStr.IsSpace` | spanish_tts_app.py:115-122 | the whitespace that `strip` removes is exactly the table of the 29 code points Python's `str.isspace` accepts |
| `PyStr.LStrip` | spanish_tts_app.py:115 | the leading-whitespace cut of `strip()`: a suffix with only whitespace removed in front, not starting with whitespace |
| `PyStr.RStrip` | spanish_tts_app.py:115 | the trailing-whitespace cut of `strip()`: a prefix with only whitespace removed behind, not ending with whitespace |
| `PyStr.Strip` | spanish_tts_app.py:115 | `name.strip()` is a slice of the name with only whitespace cut from either end and none left at either end |
| `PyStr.StripEmptyIffAllSpace` | spanish_tts_app.py:116 | `not s.strip()` holds exactly when the string is empty or all whitespace (the name, transcript and target-text checks) |
| `PyStr.StripIdempotent` | spanish_tts_app.py:115 | stripping an already stripped name changes nothing, so a stored name saved again targets the same key |
| `PyStr.Prefix` | spanish_tts_app.py:109 | `s[:80]` is a prefix of `s` of length min(80, len(s)) |
| `PyStr.JoinLines` | spanish_tts_app.py:111 | `"\n".join(lines)` opens with the first line and is that line alone when there is only one |
| `PyStr.JoinLinesShape` | spanish_tts_app.py:111 | newline-free lines join into newline-free text exactly when there is at most one of them |
| `PyStr.SplitJoinLines` | spanish_tts_app.py:111 | splitting `"\n".join(lines)` on newlines gives back newline-free lines |
| `PyStr.SplitAfterLine` | spanish_tts_app.py:111 | splitting a newline-free head followed by a tail merges the head into the tail's first piece |
| `PosixPath.Join` | spanish_tts_app.py:73 | an absolute second component replaces the first; a relative one extends it |
| `PosixPath.JoinEndsWith` | spanish_tts_app.py:128 | the joined path always ends with the second component |
| `PosixPath.JoinAssociative` | spanish_tts_app.py:127-133 | `join(join(a, b), c) == join(a, join(b, c))`, so the copy destination and the stored audio path resolve to the same file |
| `PosixPath.RFind` | spanish_tts_app.py:126 | `rfind` returns the index of the last occurrence, or -1 when there is none |
| `PosixPath.Ext` | spanish_tts_app.py:126 | `splitext(p)[1]` is empty or a dot followed by no dots or separators, and is a suffix of the path |
| `PosixPath.ExtNonEmptyIff` | spanish_tts_app.py:126 | a path has an extension exactly when its final component has a dot preceded by a non-dot character of that component |
| `PosixPath.SplitExt` | spanish_tts_app.py:126 | the loop of `os.path.splitext` splits the path into root and extension, and the extension is the one `Ext` defines |
| `VoiceStore.SaveVoices` | spanish_tts_app.py:46-55 | writing the registry and loading it back gives the same registry; the files are untouched |
| `VoiceStore.VoiceNames` | spanish_tts_app.py:58-59 | the name list holds exactly the registered names, one per binding, in registry order |
| `VoiceStore.StoredExt` | spanish_tts_app.py:126 | the stored extension is the source's extension, or `.wav` when it has none, and is always a real extension |
| `VoiceStore.CopyDestinationIsStoredAudio` | spanish_tts_app.py:127-133 | `CopyDestination` (line 128, `join(VOICES_DIR, name + ext)`, the file `copy2` writes) is the file that `AudioLocation` (line 133, the stored `"audio"` field) resolves to under the application directory |
| `VoiceStore.AudioLocationRelative` | spanish_tts_app.py:133 | for a name that is not an absolute path, `AudioLocation` (the `"audio"` field `join("voices", name + ext)` of line 133) is `"voices/" + name + ext` |
| `VoiceStore.AbsoluteNameLocation` | spanish_tts_app.py:127-133 | a name that is an absolute path is stored and copied as that path plus the extension, a location string that does not start with `voices/` |
| `VoiceStore.AbsoluteNameAliasesVoice` | spanish_tts_app.py:127-133 | for an absolute `appDir`, the voices `name` and `join(appDir, "voices", name)` have different location strings but resolve, and are copied, to the same path |
| `VoiceStore.OwnerNameOfAudioLocation` | spanish_tts_app.py:126-133 | the voice name can be recovered from the audio location string, so distinct names never share a location string |
| `VoiceStore.AudioLocationDependsOnExt` | spanish_tts_app.py:126-129 | the same name saved from sources with different stored extensions gets two different location strings |
| `VoiceStore.RegistryNameCollides` | spanish_tts_app.py:126-133 | the voice `voices` saved from a `.json` source is stored at `voices/voices.json`, the registry document's own location (`VOICES_JSON`, line 23) |
| `VoiceStore.StoreVoice` | spanish_tts_app.py:126-136 | the copy-and-upsert of a save binds the name to its audio location and transcript, leaves other voices alone, keeps an existing key's position or appends a new one, and adds exactly that file |
| `VoiceStore.SaveVoice` | spanish_tts_app.py:114-140 | a blank name or missing audio is rejected with its message, changes nothing and calls nothing; transcription is called exactly when the transcript is blank, and its failure escapes with the store unchanged; otherwise the stripped name is stored with the given transcript verbatim or the transcription, and the reply lists the names in order |
| `VoiceStore.DropVoice` | spanish_tts_app.py:150-157 | the removal half of a delete cuts out that one binding, removes that one file if present, and leaves every other voice and file alone |
| `VoiceStore.DeleteVoice` | spanish_tts_app.py:143-161 | an empty or unknown name gets its message and changes nothing; an entry without an audio location raises `IsADirectoryError` for `join(appDir, "")` and changes nothing; otherwise that binding and its file go and the reply lists the remaining names |
| `VoiceStore.StoreVoicePreservesIntegrity` | spanish_tts_app.py:126-136 | the copy-and-upsert keeps every voice complete and backed by a file it owns, because the new entry's location is the one just copied, and `OwnerName` recovers the name from it |
| `VoiceStore.SaveVoicePreservesIntegrity` | spanish_tts_app.py:114-140 | a save keeps every registered voice complete, with a location string it owns among the files present |
| `VoiceStore.DropVoicePreservesIntegrity` | spanish_tts_app.py:150-157 | removing a registered voice and its file keeps every other voice backed by its file |
| `VoiceStore.DeleteVoicePreservesIntegrity` | spanish_tts_app.py:143-161 | a delete keeps every remaining voice backed by its file, because the removed file belonged to the deleted voice alone |
| `VoiceStore.ResaveWithOtherExtLeavesOrphan` | spanish_tts_app.py:126-136 | re-saving a voice from a source with another extension leaves the first copy on disk while no voice refers to it |
| `VoiceTable.Preview` | spanish_tts_app.py:109 | the transcript cell is the first min(80, length) characters of the transcript, or empty when the key is absent |
| `VoiceTable.Row` | spanish_tts_app.py:110 | a row is the name, then the transcript preview, each as a Markdown cell between bars, and exactly seven characters longer than name and preview together |
| `VoiceTable.RowNoNewline` | spanish_tts_app.py:110 | a row has no newline when neither its name nor its preview has one |
| `VoiceTable.Rows` | spanish_tts_app.py:108-110 | one row per voice, in registry order, each holding the name and its transcript preview as two Markdown cells |
| `VoiceTable.VoicesTableMd` | spanish_tts_app.py:103-111 | the placeholder appears exactly when the registry is empty; otherwise the text starts with the header line |
| `VoiceTable.TableSplitsIntoRows` | spanish_tts_app.py:107-111 | with newline-free names and previews, the table text is the two header lines followed by one row per voice, in registry order |
| `Synthesis.OnVoiceSelect` | spanish_tts_app.py:65-74 | no selection or an unknown name gives `(None, "")`; a known, complete entry always gives its audio resolved against the application directory and its transcript; a `KeyError` is raised exactly when the known entry lacks a key |
| `Synthesis.SelectAfterSave` | spanish_tts_app.py:65-74 | selecting a voice just saved returns the file the save copied and the transcript it stored |
| `Synthesis.SelectAfterDelete` | spanish_tts_app.py:69-71 | selecting a voice just deleted gives `(None, "")` |
| `Synthesis.SelectUnderIntegrity` | spanish_tts_app.py:65-74 | under referential integrity, selecting a saved voice does not raise and resolves to an existing file |
| `Synthesis.GenerateAudio` | spanish_tts_app.py:77-97 | missing reference audio or blank target text raises its message before any model call; otherwise the reference pair is preprocessed as given, and the target text and speed go unchanged to inference, whose sample rate and waveform are returned exactly as produced, and whose errors escape |
| `Synthesis.RejectedGenerationIgnoresModel` | spanish_tts_app.py:78-81 | a rejected request raises and its outcome is the same for any implementation of the model calls |

## Left out

- Model and vocoder loading and the weight download (spanish_tts_app.py:30-40): foreign machine-learning code and network I/O.
- The insides of `transcribe`, `preprocess_ref_audio_text` and `infer_process`: opaque library calls, modelled only as function parameters. Their fixed `language="es"` argument is not recorded.
- Waveforms, sample rates, the spectrogram `infer_process` returns, and the floating-point speed: these are opaque type parameters passed through. The 0.3–2.0 speed range is enforced by the UI slider, which is not part of this model.
- JSON encoding (`ensure_ascii`, `indent`), parse errors of a corrupt document, and documents whose values are not objects of strings: persistence is treated as the identity. Duplicate keys are excluded by construction of `Dict`.
- Byte-level copying by `shutil.copy2` and file-system failures (an unreadable source, an unwritable destination): a copy is modelled as adding the destination to the file set, and I/O errors are not modelled.
- VoiceStore.SaveVoicePreservesIntegrity, VoiceStore.DeleteVoicePreservesIntegrity: the invariant `Integrity` holds of location strings, not of resolved paths, so it does not rule out two voices sharing one file through an absolute name (`AbsoluteNameAliasesVoice`); modelling resolved paths would need the application directory in the state.
- VoiceTable.TableSplitsIntoRows: proved only when no name or transcript preview contains a newline. A multi-line transcript (the save form's text box has two lines) spills its row over several lines, and the table then has more lines than voices; the model states nothing about that layout beyond `VoicesTableMd`'s header prefix.
- File identity beyond string equality: paths that differ as strings but name one file (`voices/./a.wav`, symbolic links, case-insensitive file systems) are treated as different. An `"audio"` field naming a directory other than the application directory itself is not modelled.
- VoiceStore.StoreVoice, VoiceStore.SaveVoice: the registry document is not in `files`, so a copy onto `voices/voices.json` (the voice `voices` from a `.json` source) is modelled as an ordinary save, although the program overwrites the registry and its next load raises. `shutil.SameFileError`, which `copy2` raises when the audio path already is the destination, is not modelled either.
- VoiceStore.DeleteVoice: requires an absolute `appDir`. With `appDir` `""` the path `join("", "")` does not exist, so the program would skip the removal and delete the binding. `os.path.dirname(__file__)` is never empty when the program runs. The thrown message is Linux's; on macOS unlinking a directory raises `PermissionError: [Errno 1] Operation not permitted` instead.
- Windows path rules (`ntpath`): paths follow POSIX `os.path`.
- The Gradio UI and its event wiring, including `save_and_refresh` and `delete_and_refresh` (spanish_tts_app.py:167-265): presentation only. The two dropdowns always receive the same update, so the model returns it once.
- `None` for the text inputs of `save_voice` and `generate_audio`: Gradio text boxes always deliver strings. The audio and dropdown inputs, which can be `None`, are `Option`s.
- `install.js` and `start.js`: launcher scripts without logic.
- The read-modify-write race between concurrent requests: the model is sequential.

=== FILE: common.dfy ===
/** Values shared by every part of the model: Python's `None`, exceptions that
    escape an operation, and the calls made to the external speech capabilities. */
module Common {

  /** A Python value that may be `None`. */
  datatype Option<+T> = None | Some(value: T) {

    /** The value, or `default` when it is `None` (Python's `dict.get(key, default)`). */
    function GetOr(default: T): T {
      match this
      case Some(v) => v
      case None => default
    }
  }

  /** Either a returned value or an exception that propagated out of the call. */
  datatype Result<+T> = Ok(value: T) | Raised(message: string)

  /** Python truthiness of an optional string: `None` and `""` are both false. */
  predicate Falsy(o: Option<string>) {
    o.None? || o.value == ""
  }

  /** One call into an external capability, recorded in the order it is made.
      The language argument, always Spanish ("es"), is fixed and not recorded. */
  datatype Call =
    | Transcribe(audio: string)
    | Preprocess(audio: string, transcript: string)
    | Infer(genText: string)
}

=== FILE: orderedmap.dfy ===
/** A Python `dict` as the program uses it: bindings kept in insertion order,
    each key at most once. Assigning to an existing key keeps its position;
    assigning to a new key appends it; `del` drops the binding. */
module OrderedMap {
  import opened Common

  /** The bindings of a dictionary, oldest first. */
  type Bindings<K, V> = seq<(K, V)>

  /** `list(d.keys())`: the keys in insertion order, one per binding. */
  function Keys<K, V>(d: Bindings<K, V>): (ks: seq<K>)
    ensures |ks| == |d|
  {
    if d == [] then [] else [d[0].0] + Keys(d[1..])
  }

  /** The key list holds each binding's key at that binding's position. */
  lemma {:induction false} KeysAt<K, V>(d: Bindings<K, V>, i: nat)
    requires i < |d|
    ensures Keys(d)[i] == d[i].0
  {
    if i > 0 {
      KeysAt(d[1..], i - 1);
    }
  }

  /** No key is bound twice, which every Python `dict` guarantees. */
  predicate DistinctKeys<K(==), V>(d: Bindings<K, V>) {
    d == [] || (d[0].0 !in Keys(d[1..]) && DistinctKeys(d[1..]))
  }

  /** A dictionary: bindings with distinct keys. */
  type Dict<K(==), V> = d: Bindings<K, V> | DistinctKeys(d) witness []

  /** `d.get(k)`: the value bound to `k`, or `None` exactly when `k` is not a key. */
  function Get<K(==), V>(d: Bindings<K, V>, k: K): (r: Option<V>)
    ensures r.Some? <==> k in Keys(d)
  {
    if d == [] then None
    else if d[0].0 == k then Some(d[0].1)
    else Get(d[1..], k)
  }

  /** In a dictionary, looking up the key of a binding finds that binding's value. */
  lemma {:induction false} GetAt<K, V>(d: Dict<K, V>, i: nat)
    requires i < |d|
    ensures Get(d, d[i].0) == Some(d[i].1)
  {
    if i > 0 {
      KeysAt(d[1..], i - 1);
      GetAt(d[1..], i - 1);
    }
  }

  /** `d[k] = v`: binds `k` to `v` and leaves every other key's value
      alone; an existing key keeps its position, a new key goes last. */
  function Put<K(==,!new), V>(d: Bindings<K, V>, k: K, v: V): (r: Bindings<K, V>)
    ensures Get(r, k) == Some(v)
    ensures forall k' :: k' != k ==> Get(r, k') == Get(d, k')
    ensures Keys(r) == if k in Keys(d) then Keys(d) else Keys(d) + [k]
  {
    if d == [] then [(k, v)]
    else if d[0].0 == k then
      var r := [(k, v)] + d[1..];
      assert r[1..] == d[1..];
      r
    else
      var rest := Put(d[1..], k, v);
      var r := [d[0]] + rest;
      assert r[1..] == rest;
      r
  }

  /** `Put` keeps a dictionary a dictionary. */
  lemma {:induction false} PutDistinct<K(!new), V>(d: Dict<K, V>, k: K, v: V)
    ensures DistinctKeys(Put(d, k, v))
  {
    if d != [] && d[0].0 != k {
      var r := Put(d, k, v);
      PutDistinct(d[1..], k, v);
      assert r[1..] == Put(d[1..], k, v);
    } else if d != [] {
      assert Put(d, k, v)[1..] == d[1..];
    }
  }

  /** `del d[k]` (applied only when `k` is a key): every binding except
      those for `k`, in their original order. */
  function Remove<K(==,!new), V>(d: Bindings<K, V>, k: K): (r: Bindings<K, V>)
    ensures Get(r, k) == None
    ensures forall k' :: k' != k ==> Get(r, k') == Get(d, k')
    ensures k !in Keys(d) ==> r == d
  {
    if d == [] then []
    else if d[0].0 == k then Remove(d[1..], k)
    else
      var rest := Remove(d[1..], k);
      var r := [d[0]] + rest;
      assert r[1..] == rest;
      r
  }

  /** The position of the first binding for `k`. */
  function IndexOf<K(==), V>(d: Bindings<K, V>, k: K): (i: nat)
    requires k in Keys(d)
    ensures i < |d| && d[i].0 == k
  {
    if d[0].0 == k then 0 else 1 + IndexOf(d[1..], k)
  }

  /** In a dictionary, removing a key cuts exactly its one binding out and
      leaves the others in place. */
  lemma {:induction false} RemoveCutsOut<K(!new), V>(d: Dict<K, V>, k: K)
    requires k in Keys(d)
    ensures Remove(d, k) == d[..IndexOf(d, k)] + d[IndexOf(d, k) + 1..]
  {
    var t: Dict<K, V> := d[1..];
    if d[0].0 == k {
      assert IndexOf(d, k) == 0;
      assert Remove(d, k) == Remove(t, k) == t;
      assert d[..0] + d[1..] == t;
    } else {
      assert k in Keys(t);
      RemoveCutsOut(t, k);
      var i := IndexOf(t, k);
      assert IndexOf(d, k) == i + 1;
      assert Remove(d, k) == [d[0]] + Remove(t, k);
      assert d == [d[0]] + t;
      ConsCutOut(d[0], t, i);
    }
  }

  /** Cutting position `i` out of a tail is cutting position `i + 1` out of
      the whole sequence. */
  lemma ConsCutOut<T>(x: T, t: seq<T>, i: nat)
    requires i < |t|
    ensures [x] + (t[..i] + t[i + 1..]) == ([x] + t)[..i + 1] + ([x] + t)[i + 2..]
  {
    assert ([x] + t)[..i + 1] == [x] + t[..i];
    assert ([x] + t)[i + 2..] == t[i + 1..];
  }

  /** `Remove` keeps a dictionary a dictionary. */
  lemma {:induction false} RemoveDistinct<K(!new), V>(d: Dict<K, V>, k: K)
    ensures DistinctKeys(Remove(d, k))
  {
    if d != [] {
      var t: Dict<K, V> := d[1..];
      RemoveDistinct(t, k);
      if d[0].0 != k {
        var r := Remove(d, k);
        assert r[1..] == Remove(t, k);
        assert Get(Remove(t, k), d[0].0) == Get(t, d[0].0) == None;
      }
    }
  }
}

=== FILE: posixpath.dfy ===
/** The two POSIX path operations the program uses: `os.path.join` and the
    extension half of `os.path.splitext`. Paths are plain strings; nothing
    here touches a file system. */
module PosixPath {

  /** `os.path.join(a, b)`: an absolute `b` replaces `a`; otherwise `b` is
      appended, with a `/` in between unless `a` is empty or already ends in `/`. */
  function Join(a: string, b: string): (r: string)
    ensures IsAbsolute(b) ==> r == b
    ensures !IsAbsolute(b) ==> a <= r
  {
    if IsAbsolute(b) then b else a + SepAfter(a) + b
  }

  /** `b` is an absolute path. */
  predicate IsAbsolute(b: string) {
    |b| > 0 && b[0] == '/'
  }

  /** The separator `Join` puts after `a` before a relative component. */
  function SepAfter(a: string): string {
    if a == [] || a[|a| - 1] == '/' then "" else "/"
  }

  /** The joined path always ends with `b`. */
  lemma JoinEndsWith(a: string, b: string)
    ensures |b| <= |Join(a, b)| && Join(a, b)[|Join(a, b)| - |b|..] == b
  {
  }

  /** Joining a relative component appends it after the separator `a` needs. */
  lemma JoinRelative(a: string, b: string)
    requires !IsAbsolute(b)
    ensures Join(a, b) == a + SepAfter(a) + b
  {
  }

  /** Joining is associative, so `join(join(root, dir), f)` and
      `join(root, join(dir, f))` name the same path. */
  lemma JoinAssociative(a: string, b: string, c: string)
    ensures Join(Join(a, b), c) == Join(a, Join(b, c))
  {
    if IsAbsolute(c) {
      assert Join(b, c) == c;
    } else if IsAbsolute(b) {
      assert Join(a, b) == b;
      assert Join(b, c)[0] == '/';
    } else if b == [] {
      JoinEmptyMiddle(a, c);
    } else {
      JoinRelativeMiddle(a, b, c);
    }
  }

  /** Associativity when the middle component is empty. */
  lemma JoinEmptyMiddle(a: string, c: string)
    requires !IsAbsolute(c)
    ensures Join(Join(a, ""), c) == Join(a, Join("", c))
  {
    var ab := a + SepAfter(a);
    JoinRelative(a, "");
    assert ab + "" == ab;
    JoinRelative("", c);
    assert "" + "" + c == c;
    assert SepAfter(ab) == "";
    JoinRelative(ab, c);
    assert ab + "" + c == ab + c;
    JoinRelative(a, c);
  }

  /** Associativity when the middle and last components are relative and the middle is non-empty. */
  lemma JoinRelativeMiddle(a: string, b: string, c: string)
    requires !IsAbsolute(b) && !IsAbsolute(c) && b != []
    ensures Join(Join(a, b), c) == Join(a, Join(b, c))
  {
    var ab := a + SepAfter(a) + b;
    var bc := b + SepAfter(b) + c;
    JoinRelative(a, b);
    JoinRelative(b, c);
    assert ab[|ab| - 1] == b[|b| - 1];
    assert SepAfter(ab) == SepAfter(b);
    JoinRelative(ab, c);
    assert bc[0] == b[0];
    JoinRelative(a, bc);
    assert ab + SepAfter(b) + c == a + SepAfter(a) + bc;
  }

  /** `s.rfind(c)`: the index of the last `c` in `s`, or -1 when there is none. */
  function RFind(s: string, c: char): (i: int)
    ensures -1 <= i < |s|
    ensures i >= 0 ==> s[i] == c
    ensures forall j :: i < j < |s| ==> s[j] != c
  {
    if |s| == 0 then -1
    else if s[|s| - 1] == c then |s| - 1
    else RFind(s[..|s| - 1], c)
  }

  /** The characters of `s` in `[lo, hi)` are all dots. */
  predicate AllDots(s: string, lo: int, hi: int)
    requires 0 <= lo <= hi <= |s|
  {
    forall i :: lo <= i < hi ==> s[i] == '.'
  }

  /** The extension `os.path.splitext(p)[1]`: from the last dot of the final
      path component to the end, provided something other than a dot comes
      before that dot within the component (so ".bashrc" and "..." have no
      extension); `""` otherwise. It is always a suffix of `p`. */
  function Ext(p: string): (e: string)
    ensures e == "" || IsExtension(e)
    ensures |e| <= |p| && p[|p| - |e|..] == e
  {
    var sep := RFind(p, '/');
    var dot := RFind(p, '.');
    if dot > sep && !AllDots(p, sep + 1, dot) then p[dot..] else ""
  }

  /** A file-name extension: a dot followed by characters that are neither
      dots nor path separators. */
  predicate IsExtension(e: string) {
    |e| >= 1 && e[0] == '.' && forall i :: 1 <= i < |e| ==> e[i] != '.' && e[i] != '/'
  }

  /** `Ext(p)` is non-empty exactly when the final component of `p` has a
      dot that some non-dot character of that component precedes. */
  lemma ExtNonEmptyIff(p: string)
    ensures Ext(p) != "" <==>
      exists d, k :: 0 <= k < d < |p| && p[d] == '.' && p[k] != '.'
        && (forall j :: k <= j < |p| ==> p[j] != '/')
  {
  }

  /** `os.path.splitext(p)`, step for step as CPython's `_splitext` does it:
      find the last separator and the last dot, then skip the leading dots
      of the final component. */
  method SplitExt(p: string) returns (root: string, ext: string)
    ensures root + ext == p
    ensures ext == Ext(p)
  {
    var sepIndex := RFind(p, '/');
    var dotIndex := RFind(p, '.');
    if dotIndex > sepIndex {
      var filenameIndex := sepIndex + 1;
      while filenameIndex < dotIndex
        invariant sepIndex + 1 <= filenameIndex <= dotIndex
        invariant AllDots(p, sepIndex + 1, filenameIndex)
      {
        if p[filenameIndex] != '.' {
          assert !AllDots(p, sepIndex + 1, dotIndex);
          return p[..dotIndex], p[dotIndex..];
        }
        filenameIndex := filenameIndex + 1;
      }
    }
    return p, "";
  }
}

=== FILE: pystr.dfy ===
/** The Python `str` operations the program relies on: `isspace`, `strip`,
    slicing with `[:n]` and `"\n".join`. The program never splits a string;
    `split("\n")` is defined here only as the inverse that pins down what
    `"\n".join` produces. A Python `str` is a sequence of code points, which
    is what a Dafny `char` is. */
module PyStr {

  /** The 29 code points for which Python's `str.isspace` is true: those of
      bidirectional type WS, B or S, or of general category Zs. */
  const Whitespace: set<char> := {
    '\t', '\n', '\U{0B}', '\U{0C}', '\r', '\U{1C}', '\U{1D}', '\U{1E}', '\U{1F}', ' ',
    '\U{85}', '\U{A0}', '\U{1680}',
    '\U{2000}', '\U{2001}', '\U{2002}', '\U{2003}', '\U{2004}', '\U{2005}',
    '\U{2006}', '\U{2007}', '\U{2008}', '\U{2009}', '\U{200A}',
    '\U{2028}', '\U{2029}', '\U{202F}', '\U{205F}', '\U{3000}'
  }

  /** `c.isspace()`, written with the ranges of the table above. */
  predicate IsSpace(c: char): (b: bool)
    ensures b <==> c in Whitespace
  {
    || c == ' ' || c == '\t' || c == '\n' || c == '\r' || c == '\U{0B}' || c == '\U{0C}'
    || ('\U{1C}' <= c <= '\U{1F}')
    || c == '\U{85}' || c == '\U{A0}' || c == '\U{1680}'
    || ('\U{2000}' <= c <= '\U{200A}')
    || c == '\U{2028}' || c == '\U{2029}' || c == '\U{202F}' || c == '\U{205F}' || c == '\U{3000}'
  }

  /** Every character of `s` is whitespace (vacuously true of `""`). */
  predicate AllSpace(s: string) {
    forall i :: 0 <= i < |s| ==> IsSpace(s[i])
  }

  /** `s.lstrip()`: the longest suffix of `s` that does not start with whitespace. */
  function LStrip(s: string): (r: string)
    ensures |r| <= |s| && r == s[|s| - |r|..]
    ensures forall i :: 0 <= i < |s| - |r| ==> IsSpace(s[i])
    ensures r == [] || !IsSpace(r[0])
  {
    if s != [] && IsSpace(s[0]) then LStrip(s[1..]) else s
  }

  /** `s.rstrip()`: the longest prefix of `s` that does not end with whitespace. */
  function RStrip(s: string): (r: string)
    ensures |r| <= |s| && r == s[..|r|]
    ensures forall i :: |r| <= i < |s| ==> IsSpace(s[i])
    ensures r == [] || !IsSpace(r[|r| - 1])
  {
    if s != [] && IsSpace(s[|s| - 1]) then RStrip(s[..|s| - 1]) else s
  }

  /** Number of whitespace characters `s.lstrip()` removes. */
  function LeadingSpace(s: string): (n: nat)
    ensures n <= |s| && LStrip(s) == s[n..]
  {
    |s| - |LStrip(s)|
  }

  /** `s.strip()`: the slice of `s` left once whitespace is cut from both
      ends; it is empty exactly when `s` is all whitespace, and otherwise
      neither starts nor ends with whitespace. */
  function Strip(s: string): (r: string)
    ensures LeadingSpace(s) + |r| <= |s|
    ensures r == s[LeadingSpace(s)..LeadingSpace(s) + |r|]
    ensures AllSpace(s[..LeadingSpace(s)]) && AllSpace(s[LeadingSpace(s) + |r|..])
    ensures r == [] || (!IsSpace(r[0]) && !IsSpace(r[|r| - 1]))
  {
    RStrip(LStrip(s))
  }

  /** `not s.strip()` holds exactly when `s` is empty or all whitespace. */
  lemma StripEmptyIffAllSpace(s: string)
    ensures Strip(s) == "" <==> AllSpace(s)
  {
  }

  /** Stripping twice is stripping once. */
  lemma StripIdempotent(s: string)
    ensures Strip(Strip(s)) == Strip(s)
  {
  }

  /** `s[:n]` for `n >= 0`: the first `n` characters, or all of `s` when it is shorter. */
  function Prefix(s: string, n: nat): (r: string)
    ensures |r| == if |s| < n then |s| else n
    ensures r <= s
  {
    if |s| <= n then s else s[..n]
  }

  /** `"\n".join(lines)`: the lines with one newline between neighbours;
      the text opens with the first line. */
  function JoinLines(lines: seq<string>): (r: string)
    ensures |lines| == 1 ==> r == lines[0]
    ensures |lines| >= 1 ==> lines[0] <= r
  {
    if |lines| == 0 then ""
    else if |lines| == 1 then lines[0]
    else lines[0] + "\n" + JoinLines(lines[1..])
  }

  /** Newline-free lines join into newline-free text exactly when there is
      at most one of them. */
  lemma JoinLinesShape(lines: seq<string>)
    requires forall i :: 0 <= i < |lines| ==> NoNewline(lines[i])
    ensures NoNewline(JoinLines(lines)) <==> |lines| <= 1
  {
    if |lines| >= 2 {
      assert JoinLines(lines)[|lines[0]|] == '\n';
    }
  }

  /** `s.split("\n")`: the pieces between newlines; always at least one piece. */
  function SplitLines(s: string): (r: seq<string>)
    ensures |r| >= 1
  {
    if s == [] then [""]
    else
      var rest := SplitLines(s[1..]);
      if s[0] == '\n' then [""] + rest
      else [[s[0]] + rest[0]] + rest[1..]
  }

  /** `s` contains no newline. */
  predicate NoNewline(s: string) {
    forall i :: 0 <= i < |s| ==> s[i] != '\n'
  }

  /** Splitting a newline-free head followed by `t` puts the head in front of
      `t`'s first piece. */
  lemma {:induction false} SplitAfterLine(a: string, t: string)
    requires NoNewline(a)
    ensures SplitLines(a + t) == [a + SplitLines(t)[0]] + SplitLines(t)[1..]
    decreases |a|
  {
    if a == [] {
      assert a + t == t;
      assert SplitLines(t) == [SplitLines(t)[0]] + SplitLines(t)[1..];
      assert a + SplitLines(t)[0] == SplitLines(t)[0];
    } else {
      assert (a + t)[1..] == a[1..] + t;
      SplitAfterLine(a[1..], t);
      assert [a[0]] + (a[1..] + SplitLines(t)[0]) == a + SplitLines(t)[0];
    }
  }

  /** Joining newline-free lines with `"\n"` and splitting on `"\n"` gives the
      lines back. */
  lemma {:induction false} SplitJoinLines(lines: seq<string>)
    requires |lines| >= 1
    requires forall i :: 0 <= i < |lines| ==> NoNewline(lines[i])
    ensures SplitLines(JoinLines(lines)) == lines
    decreases |lines|
  {
    if |lines| == 1 {
      SplitAfterLine(lines[0], "");
      assert lines[0] + "" == lines[0];
    } else {
      var tail := JoinLines(lines[1..]);
      SplitJoinLines(lines[1..]);
      assert lines[0] + "\n" + tail == lines[0] + ("\n" + tail);
      SplitAfterLine(lines[0], "\n" + tail);
      assert ("\n" + tail)[1..] == tail;
      assert SplitLines("\n" + tail) == [""] + lines[1..];
      assert lines[0] + "" == lines[0];
    }
  }
}

=== FILE: synthesis.dfy ===
/** The synthesis tab: filling the reference fields from a saved voice
    (`on_voice_select`) and the guarded call into the speech model
    (`generate_audio`). The model's preprocessing and inference are passed
    in as functions; nothing is known about them beyond their results. */
module Synthesis {
  import opened Common
  import opened PyStr
  import opened OrderedMap
  import opened PosixPath
  import opened VoiceStore

  const NoReferenceAudio: string := "Por favor sube o selecciona un audio de referencia."
  const NoTargetText: string := "Por favor ingresa el texto a generar."

  /** `on_voice_select(voice_name)` with `appDir` for `os.path.dirname(__file__)`:
      `(None, "")` for no selection or an unknown name, otherwise the
      entry's audio resolved against the application directory, and its
      transcript. A missing key in the entry is a `KeyError`. */
  function OnVoiceSelect(s: Store, appDir: string, voiceName: Option<string>): (r: Result<(Option<string>, string)>)
    ensures Falsy(voiceName) || voiceName.value !in Keys(LoadVoices(s)) ==> r == Ok((None, ""))
    ensures !Falsy(voiceName) && Get(LoadVoices(s), voiceName.value).Some? ==>
      var e := Get(LoadVoices(s), voiceName.value).value;
      e.audio.Some? && e.transcript.Some? ==> r == Ok((Some(Join(appDir, e.audio.value)), e.transcript.value))
    ensures r.Raised? <==>
      && !Falsy(voiceName) && voiceName.value in Keys(LoadVoices(s))
      && var e := Get(LoadVoices(s), voiceName.value).value;
      && (e.audio.None? || e.transcript.None?)
  {
    if Falsy(voiceName) then Ok((None, ""))
    else
      match Get(LoadVoices(s), voiceName.value)
      case None => Ok((None, ""))
      case Some(entry) =>
        if entry.audio.None? then Raised("KeyError: 'audio'")
        else if entry.transcript.None? then Raised("KeyError: 'transcript'")
        else Ok((Some(Join(appDir, entry.audio.value)), entry.transcript.value))
  }

  /** Selecting a voice right after saving it returns the very file the save
      copied and the transcript it stored. */
  lemma SelectAfterSave(s: Store, appDir: string, name: string, audioPath: string,
                        transcript: string, transcribe: string -> Result<string>)
    requires !IsBlank(name) && audioPath != ""
    requires SaveVoice(s, name, Some(audioPath), transcript, transcribe).response.Reply?
    ensures
      var n := Strip(name);
      var stored := if IsBlank(transcript) then transcribe(audioPath).value else transcript;
      OnVoiceSelect(SaveVoice(s, name, Some(audioPath), transcript, transcribe).store, appDir, Some(n))
        == Ok((Some(CopyDestination(appDir, n, audioPath)), stored))
  {
    CopyDestinationIsStoredAudio(appDir, Strip(name), audioPath);
  }

  /** After a voice is deleted, selecting it fills nothing in. */
  lemma SelectAfterDelete(s: Store, appDir: string, name: string)
    requires IsAbsolute(appDir)
    requires DeleteVoice(s, appDir, Some(name)).response.Reply?
    ensures OnVoiceSelect(DeleteVoice(s, appDir, Some(name)).store, appDir, Some(name)) == Ok((None, ""))
  {
  }

  /** In a store with referential integrity, selecting a saved voice never
      fails and yields an existing file. */
  lemma SelectUnderIntegrity(s: Store, appDir: string, name: string)
    requires Integrity(s) && name != "" && name in Keys(LoadVoices(s))
    ensures OnVoiceSelect(s, appDir, Some(name)).Ok?
    ensures
      var e := Get(LoadVoices(s), name).value;
      && e.audio.Some? && e.audio.value in s.files
      && OnVoiceSelect(s, appDir, Some(name)).value.0 == Some(Join(appDir, e.audio.value))
  {
  }

  /** The outcome of `generate_audio`: `(sample_rate, audio_out)` or the
      error shown to the user, with the model calls made on the way. */
  datatype Generation<R, W> = Generation(result: Result<(R, W)>, calls: seq<Call>)

  /** `generate_audio(ref_audio, ref_transcript, gen_text, speed)`.
      `preprocess` is `preprocess_ref_audio_text(..., language="es")`;
      `infer` is `infer_process` with the loaded model and vocoder, returning
      `(audio_out, sample_rate, spectrogram)`. */
  function GenerateAudio<A, W, R, G, Sp>(
    refAudio: Option<string>, refTranscript: string, genText: string, speed: Sp,
    preprocess: (string, string) -> Result<(A, string)>,
    infer: (A, string, string, Sp) -> Result<(W, R, G)>): (g: Generation<R, W>)
    // Input checks come first and call nothing.
    ensures Falsy(refAudio) ==> g == Generation(Raised(NoReferenceAudio), [])
    ensures !Falsy(refAudio) && IsBlank(genText) ==> g == Generation(Raised(NoTargetText), [])
    // Otherwise the reference pair is preprocessed, unchanged.
    ensures !Falsy(refAudio) && !IsBlank(genText) ==>
      |g.calls| >= 1 && g.calls[0] == Preprocess(refAudio.value, refTranscript)
    ensures !Falsy(refAudio) && !IsBlank(genText) && preprocess(refAudio.value, refTranscript).Raised? ==>
      g == Generation(Raised(preprocess(refAudio.value, refTranscript).message),
                      [Preprocess(refAudio.value, refTranscript)])
    // And its output, the target text and the speed go to inference, whose
    // sample rate and waveform come back exactly as produced.
    ensures !Falsy(refAudio) && !IsBlank(genText) && preprocess(refAudio.value, refTranscript).Ok? ==>
      var (a, t) := preprocess(refAudio.value, refTranscript).value;
      && g.calls == [Preprocess(refAudio.value, refTranscript), Infer(genText)]
      && (infer(a, t, genText, speed).Raised? <==> g.result.Raised?)
      && (infer(a, t, genText, speed).Raised? ==> g.result.message == infer(a, t, genText, speed).message)
      && (infer(a, t, genText, speed).Ok? ==>
            g.result.value == (infer(a, t, genText, speed).value.1, infer(a, t, genText, speed).value.0))
  {
    if Falsy(refAudio) then Generation(Raised(NoReferenceAudio), [])
    else if IsBlank(genText) then Generation(Raised(NoTargetText), [])
    else
      var ref := refAudio.value;
      var pre := [Preprocess(ref, refTranscript)];
      match preprocess(ref, refTranscript)
      case Raised(m) => Generation(Raised(m), pre)
      case Ok((refAudioProc, refTextProc)) =>
        var calls := pre + [Infer(genText)];
        match infer(refAudioProc, refTextProc, genText, speed)
        case Raised(m) => Generation(Raised(m), calls)
        case Ok((audioOut, sampleRate, _)) => Generation(Ok((sampleRate, audioOut)), calls)
  }

  /** A rejected request does not depend on the model at all: any two
      model implementations give the same outcome. */
  lemma RejectedGenerationIgnoresModel<A, W, R, G, Sp>(
    refAudio: Option<string>, refTranscript: string, genText: string, speed: Sp,
    preprocess1: (string, string) -> Result<(A, string)>,
    infer1: (A, string, string, Sp) -> Result<(W, R, G)>,
    preprocess2: (string, string) -> Result<(A, string)>,
    infer2: (A, string, string, Sp) -> Result<(W, R, G)>)
    requires Falsy(refAudio) || IsBlank(genText)
    ensures GenerateAudio(refAudio, refTranscript, genText, speed, preprocess1, infer1)
         == GenerateAudio(refAudio, refTranscript, genText, speed, preprocess2, infer2)
    ensures GenerateAudio(refAudio, refTranscript, genText, speed, preprocess1, infer1).result.Raised?
  {
  }
}

=== FILE: voicestore.dfy ===
/** The voice-profile store: the registry document `voices/voices.json`,
    the reference-audio files copied next to it, and the two operations that
    change them, `save_voice` and `delete_voice`. */
module VoiceStore {
  import opened Common
  import opened PyStr
  import opened OrderedMap
  import opened PosixPath

  /** One value of the registry document, `{"audio": ..., "transcript": ...}`.
      Both keys are written by every save, but a hand-edited document may
      lack either, which is why readers fall back or fail. */
  datatype Entry = Entry(audio: Option<string>, transcript: Option<string>)

  /** The registry: voice name to entry, in insertion order. */
  type Registry = Dict<string, Entry>

  /** The durable state. `document` is the registry as last written (absent
      until the first save; writing and reading it back is the identity).
      `files` holds the files present, each named by its location string
      relative to the application directory: location `loc` is the file at
      `join(appDir, loc)`, so an absolute location names itself. Two
      different location strings are taken to be two different files,
      although they can resolve to one path (`AbsoluteNameAliasesVoice`). */
  datatype Store = Store(document: Option<Registry>, files: set<string>)

  /** Directory, relative to the application directory, that receives the copies. */
  const VoicesDir: string := "voices"

  /** What a relative location inside `VoicesDir` starts with. */
  const VoicesPrefix: string := VoicesDir + "/"

  /** Extension used when the uploaded file has none. */
  const DefaultExt: string := ".wav"

  /** Location of the registry document `voices/voices.json`. */
  const RegistryLocation: string := VoicesPrefix + "voices" + ".json"

  /** What the two voice dropdowns are told: `gr.update()` leaves them as
      they are; `gr.update(choices=names, value=None)` replaces the choices
      and clears the selection. Both dropdowns always receive the same update. */
  datatype Update = Unchanged | Choices(names: seq<string>)

  /** The reply of an operation, or the exception that escaped it. */
  datatype Response = Reply(status: string, dropdowns: Update) | Thrown(message: string)

  /** The state after an operation, its reply, and the external calls it made. */
  datatype Step = Step(store: Store, response: Response, calls: seq<Call>)

  const NameRequired: string := "Error: ingresa un nombre para la voz."
  const AudioRequired: string := "Error: sube un audio de referencia."
  const SelectToDelete: string := "Selecciona una voz para eliminar."

  function SavedMessage(name: string): string {
    "Voz '" + name + "' guardada correctamente."
  }

  function NotFoundMessage(name: string): string {
    "Voz '" + name + "' no encontrada."
  }

  function DeletedMessage(name: string): string {
    "Voz '" + name + "' eliminada."
  }

  /** The exception `os.remove(path)` raises on Linux when `path` is a
      directory, as `type: str(exc)`. */
  function RemoveDirectoryError(path: string): string {
    "IsADirectoryError: [Errno 21] Is a directory: '" + path + "'"
  }

  /** `load_voices()`: the document, or an empty registry when there is none yet. */
  function LoadVoices(s: Store): (reg: Registry)
    ensures s.document.None? ==> reg == []
    ensures s.document.Some? ==> reg == s.document.value
  {
    s.document.GetOr([])
  }

  /** `save_voices(voices)`: replaces the document; the files are untouched. */
  function SaveVoices(s: Store, reg: Registry): (s': Store)
    ensures LoadVoices(s') == reg
    ensures s'.document.Some? && s'.files == s.files
  {
    s.(document := Some(reg))
  }

  /** `voice_names()`: exactly the registered names, in registry order. */
  function VoiceNames(s: Store): (names: seq<string>)
    ensures |names| == |LoadVoices(s)|
    ensures forall i :: 0 <= i < |names| ==>
      names[i] == LoadVoices(s)[i].0 && Get(LoadVoices(s), names[i]) == Some(LoadVoices(s)[i].1)
    ensures forall name :: name in names <==> Get(LoadVoices(s), name).Some?
  {
    var reg := LoadVoices(s);
    forall i | 0 <= i < |reg| ensures Keys(reg)[i] == reg[i].0 && Get(reg, reg[i].0) == Some(reg[i].1) {
      KeysAt(reg, i);
      GetAt(reg, i);
    }
    Keys(reg)
  }

  /** `not s.strip()`. */
  predicate IsBlank(s: string) {
    Strip(s) == ""
  }

  /** `os.path.splitext(audio_path)[1] or ".wav"`: always a real extension. */
  function StoredExt(audioPath: string): (e: string)
    ensures IsExtension(e)
    ensures e == Ext(audioPath) || (Ext(audioPath) == "" && e == DefaultExt)
  {
    var e := Ext(audioPath);
    if e == "" then DefaultExt else e
  }

  /** The `"audio"` field a save writes: `os.path.join("voices", name + ext)`. */
  function AudioLocation(name: string, audioPath: string): string {
    Join(VoicesDir, name + StoredExt(audioPath))
  }

  /** Where the copy goes: `os.path.join(VOICES_DIR, name + ext)` with
      `VOICES_DIR = os.path.join(appDir, "voices")`. */
  function CopyDestination(appDir: string, name: string, audioPath: string): string {
    Join(Join(appDir, VoicesDir), name + StoredExt(audioPath))
  }

  /** The file the copy writes is the file the stored `"audio"` field names,
      so later lookups and deletions resolve to the saved copy. */
  lemma CopyDestinationIsStoredAudio(appDir: string, name: string, audioPath: string)
    ensures Join(appDir, AudioLocation(name, audioPath)) == CopyDestination(appDir, name, audioPath)
  {
    JoinAssociative(appDir, VoicesDir, name + StoredExt(audioPath));
  }

  /** A relative path joined onto `voices` is that path behind `voices/`. */
  lemma JoinVoicesDir(x: string)
    requires !IsAbsolute(x)
    ensures Join(VoicesDir, x) == VoicesPrefix + x
  {
    JoinRelative(VoicesDir, x);
    assert SepAfter(VoicesDir) == "/";
  }

  /** For a name that is not an absolute path, the stored audio is
      `"voices/" + name + ext`. */
  lemma AudioLocationRelative(name: string, audioPath: string)
    requires !IsAbsolute(name)
    ensures AudioLocation(name, audioPath) == VoicesPrefix + name + StoredExt(audioPath)
  {
    var e := StoredExt(audioPath);
    var f := name + e;
    assert f[0] == if name == [] then e[0] else name[0];
    JoinVoicesDir(f);
    assert VoicesPrefix + f == VoicesPrefix + name + e;
  }

  /** The name is not checked for separators: a name that is an absolute path
      is stored, and copied to, as that path plus the extension, a location
      string that does not start with `voices/`. */
  lemma AbsoluteNameLocation(name: string, audioPath: string)
    requires IsAbsolute(name)
    ensures AudioLocation(name, audioPath) == name + StoredExt(audioPath)
    ensures !(VoicesPrefix <= AudioLocation(name, audioPath))
  {
    assert AudioLocation(name, audioPath)[0] == '/' != VoicesPrefix[0];
  }

  /** An absolute name can point back into the voices directory: the voice
      named `join(appDir, "voices", name)` is stored under a different
      location string than the voice `name`, yet both resolve to, and are
      copied to, the same path. */
  lemma AbsoluteNameAliasesVoice(appDir: string, name: string, audioPath: string)
    requires IsAbsolute(appDir) && !IsAbsolute(name)
    ensures
      var alias := Join(Join(appDir, VoicesDir), name);
      && alias != name
      && AudioLocation(alias, audioPath) != AudioLocation(name, audioPath)
      && Join(appDir, AudioLocation(alias, audioPath)) == Join(appDir, AudioLocation(name, audioPath))
      && CopyDestination(appDir, alias, audioPath) == CopyDestination(appDir, name, audioPath)
  {
    var alias := Join(Join(appDir, VoicesDir), name);
    AliasPath(appDir, name);
    assert alias != name by {
      if name != [] { assert alias[0] != name[0]; }
    }
    AbsoluteNameLocation(alias, audioPath);
    AudioLocationRelative(name, audioPath);
    assert AudioLocation(alias, audioPath)[0] != AudioLocation(name, audioPath)[0];
    AliasResolvesToVoice(appDir, name, audioPath);
    CopyDestinationIsStoredAudio(appDir, name, audioPath);
    CopyDestinationIsStoredAudio(appDir, alias, audioPath);
  }

  /** The resolution half of `AbsoluteNameAliasesVoice`. */
  lemma AliasResolvesToVoice(appDir: string, name: string, audioPath: string)
    requires IsAbsolute(appDir) && !IsAbsolute(name)
    ensures var alias := Join(Join(appDir, VoicesDir), name);
      Join(appDir, AudioLocation(alias, audioPath)) == Join(appDir, AudioLocation(name, audioPath))
  {
    var e := StoredExt(audioPath);
    var alias := Join(Join(appDir, VoicesDir), name);
    AliasPath(appDir, name);
    AbsoluteNameLocation(alias, audioPath);
    AudioLocationRelative(name, audioPath);
    var loc := AudioLocation(name, audioPath);
    assert loc[0] == 'v';
    JoinRelative(appDir, loc);
    ConcatRegroup(appDir + SepAfter(appDir), VoicesPrefix, name, e);
  }

  /** Concatenation regroups freely. */
  lemma ConcatRegroup(a: string, b: string, c: string, d: string)
    ensures a + b + c + d == a + (b + c + d)
  {
  }

  /** `join(appDir, "voices", name)` for an absolute `appDir` and a relative
      `name` is an absolute path spelled out in full. */
  lemma AliasPath(appDir: string, name: string)
    requires IsAbsolute(appDir) && !IsAbsolute(name)
    ensures Join(Join(appDir, VoicesDir), name) == appDir + SepAfter(appDir) + VoicesPrefix + name
    ensures IsAbsolute(Join(Join(appDir, VoicesDir), name))
  {
    var dir := appDir + SepAfter(appDir) + VoicesDir;
    JoinRelative(appDir, VoicesDir);
    assert dir[|dir| - 1] == 's';
    JoinRelative(dir, name);
    assert dir[0] == '/';
  }

  /** The voice name a stored audio location was derived from: drop the
      `voices/` prefix, then everything from the last dot. */
  function OwnerName(loc: string): string {
    var f := if VoicesPrefix <= loc then loc[|VoicesPrefix|..] else loc;
    var dot := RFind(f, '.');
    if dot < 0 then f else f[..dot]
  }

  /** The audio location string determines the voice name: distinct names
      never share a location string. */
  lemma OwnerNameOfAudioLocation(name: string, audioPath: string)
    ensures OwnerName(AudioLocation(name, audioPath)) == name
  {
    var e := StoredExt(audioPath);
    var f := name + e;
    var loc := AudioLocation(name, audioPath);
    if IsAbsolute(name) {
      AbsoluteNameLocation(name, audioPath);
    } else {
      AudioLocationRelative(name, audioPath);
      assert VoicesPrefix <= loc && loc[|VoicesPrefix|..] == f;
    }
    assert f[|name|] == '.';
    assert forall j :: |name| < j < |f| ==> f[j] == e[j - |name|];
    assert RFind(f, '.') == |name|;
    assert f[..|name|] == name;
  }

  /** Two saves of one name from sources with different stored extensions
      write to two different location strings. */
  lemma AudioLocationDependsOnExt(name: string, p1: string, p2: string)
    requires StoredExt(p1) != StoredExt(p2)
    ensures AudioLocation(name, p1) != AudioLocation(name, p2)
  {
    var prefix := if IsAbsolute(name) then name else VoicesPrefix + name;
    if IsAbsolute(name) {
      AbsoluteNameLocation(name, p1);
      AbsoluteNameLocation(name, p2);
    } else {
      AudioLocationRelative(name, p1);
      AudioLocationRelative(name, p2);
    }
    assert AudioLocation(name, p1) == prefix + StoredExt(p1);
    assert AudioLocation(name, p2) == prefix + StoredExt(p2);
    CommonPrefixCancels(prefix, StoredExt(p1), StoredExt(p2));
  }

  /** The registry document is not among the files, yet the copy of a save
      can land on it: the voice `voices` saved from a `.json` source is
      stored at the registry's own location. */
  lemma RegistryNameCollides(audioPath: string)
    requires StoredExt(audioPath) == ".json"
    ensures AudioLocation("voices", audioPath) == RegistryLocation
  {
    AudioLocationRelative("voices", audioPath);
  }

  /** Strings with a common prefix differ when their tails differ. */
  lemma CommonPrefixCancels(p: string, a: string, b: string)
    requires a != b
    ensures p + a != p + b
  {
    assert (p + a)[|p|..] == a;
    assert (p + b)[|p|..] == b;
  }

  /** The name is stripped and non-empty and the audio path is present. */
  predicate Accepted(name: string, audioPath: Option<string>) {
    !IsBlank(name) && !Falsy(audioPath)
  }

  /** The copy and the registry update of a successful save: the file for
      `name` is added and `name` is bound to it and to `transcript`. */
  function StoreVoice(s: Store, name: string, audioPath: string, transcript: string): (s': Store)
    ensures Get(LoadVoices(s'), name) == Some(Entry(Some(AudioLocation(name, audioPath)), Some(transcript)))
    ensures forall k :: k != name ==> Get(LoadVoices(s'), k) == Get(LoadVoices(s), k)
    ensures Keys(LoadVoices(s')) ==
      if name in Keys(LoadVoices(s)) then Keys(LoadVoices(s)) else Keys(LoadVoices(s)) + [name]
    ensures s'.files == s.files + {AudioLocation(name, audioPath)}
  {
    var loc := AudioLocation(name, audioPath);
    var copied := s.(files := s.files + {loc});
    var voices := LoadVoices(copied);
    PutDistinct(voices, name, Entry(Some(loc), Some(transcript)));
    SaveVoices(copied, Put(voices, name, Entry(Some(loc), Some(transcript))))
  }

  /** `save_voice(name, audio_path, transcript)`. `transcribe` stands for the
      speech-recognition capability (Spanish); it is consulted only when the
      transcript is blank. */
  function SaveVoice(s: Store, name: string, audioPath: Option<string>, transcript: string,
                     transcribe: string -> Result<string>): (step: Step)
    // Rejected input: nothing changes and nothing is called.
    ensures IsBlank(name) ==> step == Step(s, Reply(NameRequired, Unchanged), [])
    ensures !IsBlank(name) && Falsy(audioPath) ==> step == Step(s, Reply(AudioRequired, Unchanged), [])
    // Transcription is called, once, exactly when the transcript is blank.
    ensures Accepted(name, audioPath) ==>
      step.calls == if IsBlank(transcript) then [Transcribe(audioPath.value)] else []
    // A failing transcription escapes and leaves the store as it was.
    ensures Accepted(name, audioPath) ==>
      (step.response.Thrown? <==> IsBlank(transcript) && transcribe(audioPath.value).Raised?)
    ensures step.response.Thrown? ==>
      step.store == s && audioPath.Some? && transcribe(audioPath.value) == Raised(step.response.message)
    // Success: the stripped name is bound to the copy and to the given
    // transcript, or to the transcription when the given one is blank.
    ensures Accepted(name, audioPath) && step.response.Reply? ==>
      && step.store == StoreVoice(s, Strip(name), audioPath.value,
           if IsBlank(transcript) then transcribe(audioPath.value).value else transcript)
      && step.response == Reply(SavedMessage(Strip(name)), Choices(Keys(LoadVoices(step.store))))
  {
    var n := Strip(name);
    if n == "" then Step(s, Reply(NameRequired, Unchanged), [])
    else if Falsy(audioPath) then Step(s, Reply(AudioRequired, Unchanged), [])
    else
      var src := audioPath.value;
      var calls := if IsBlank(transcript) then [Transcribe(src)] else [];
      var got := if IsBlank(transcript) then transcribe(src) else Ok(transcript);
      match got
      case Raised(m) => Step(s, Thrown(m), calls)
      case Ok(t) =>
        var saved := StoreVoice(s, n, src, t);
        Step(saved, Reply(SavedMessage(n), Choices(VoiceNames(saved))), calls)
  }

  /** The removal half of a successful delete: the file at `rel` goes if
      present, and the binding for `name` is cut out of the registry. */
  function DropVoice(s: Store, name: string, rel: string): (s': Store)
    requires name in Keys(LoadVoices(s))
    ensures name !in Keys(LoadVoices(s'))
    ensures LoadVoices(s') ==
      LoadVoices(s)[..IndexOf(LoadVoices(s), name)] + LoadVoices(s)[IndexOf(LoadVoices(s), name) + 1..]
    ensures forall k :: k != name ==> Get(LoadVoices(s'), k) == Get(LoadVoices(s), k)
    ensures s'.files == s.files - {rel}
  {
    var voices := LoadVoices(s);
    var files := if rel in s.files then s.files - {rel} else s.files;
    RemoveDistinct(voices, name);
    RemoveCutsOut(voices, name);
    SaveVoices(s.(files := files), Remove(voices, name))
  }

  /** `delete_voice(name)` with `appDir` for `os.path.dirname(__file__)`,
      which is an absolute path whenever the program runs (the module is
      loaded from a file, and Python makes `__file__` absolute); for `""`
      the existence check would fail instead of resolving to a directory.
      The name is used as given, without stripping. */
  function DeleteVoice(s: Store, appDir: string, name: Option<string>): (step: Step)
    requires IsAbsolute(appDir)
    ensures step.calls == []
    // Rejected or unknown name: nothing changes.
    ensures Falsy(name) ==> step == Step(s, Reply(SelectToDelete, Unchanged), [])
    ensures !Falsy(name) && name.value !in Keys(LoadVoices(s)) ==>
      step == Step(s, Reply(NotFoundMessage(name.value), Unchanged), [])
    // An entry without an audio location resolves to the application
    // directory itself, which exists and which `os.remove` refuses.
    ensures step.response.Thrown? <==>
      !Falsy(name) && name.value in Keys(LoadVoices(s))
      && Get(LoadVoices(s), name.value).value.audio.GetOr("") == ""
    ensures step.response.Thrown? ==>
      step.store == s && step.response.message == RemoveDirectoryError(Join(appDir, ""))
    // Success: exactly that binding and that file go.
    ensures step.response.Reply? && !Falsy(name) && name.value in Keys(LoadVoices(s)) ==>
      && step.store == DropVoice(s, name.value, Get(LoadVoices(s), name.value).value.audio.value)
      && step.response == Reply(DeletedMessage(name.value), Choices(Keys(LoadVoices(step.store))))
  {
    if Falsy(name) then Step(s, Reply(SelectToDelete, Unchanged), [])
    else
      var n := name.value;
      match Get(LoadVoices(s), n)
      case None => Step(s, Reply(NotFoundMessage(n), Unchanged), [])
      case Some(entry) =>
        var rel := entry.audio.GetOr("");
        if rel == "" then Step(s, Thrown(RemoveDirectoryError(Join(appDir, ""))), [])
        else
          var saved := DropVoice(s, n, rel);
          Step(saved, Reply(DeletedMessage(n), Choices(VoiceNames(saved))), [])
  }

  /** One entry is complete and owns an existing file: both fields are
      present, `name` is what `OwnerName` recovers from its audio location
      string (so no two voices share one), and that location is among the files. */
  predicate EntryIntact(name: string, e: Entry, files: set<string>) {
    && e.audio.Some? && e.transcript.Some?
    && OwnerName(e.audio.value) == name
    && e.audio.value in files
  }

  /** Referential integrity between the registry and the files: every
      registered voice is complete and its audio file exists. */
  ghost predicate Integrity(s: Store) {
    forall name :: Get(LoadVoices(s), name).Some? ==>
      EntryIntact(name, Get(LoadVoices(s), name).value, s.files)
  }

  /** The copy-and-upsert of a save keeps every registered voice backed by its file. */
  lemma StoreVoicePreservesIntegrity(s: Store, name: string, audioPath: string, transcript: string)
    requires Integrity(s)
    ensures Integrity(StoreVoice(s, name, audioPath, transcript))
  {
    var s' := StoreVoice(s, name, audioPath, transcript);
    OwnerNameOfAudioLocation(name, audioPath);
    forall k | Get(LoadVoices(s'), k).Some?
      ensures EntryIntact(k, Get(LoadVoices(s'), k).value, s'.files)
    {
      if k != name {
        assert Get(LoadVoices(s'), k) == Get(LoadVoices(s), k);
        assert EntryIntact(k, Get(LoadVoices(s), k).value, s.files);
      }
    }
  }

  /** Saving keeps every registered voice backed by its file. */
  lemma SaveVoicePreservesIntegrity(s: Store, name: string, audioPath: Option<string>,
                                    transcript: string, transcribe: string -> Result<string>)
    requires Integrity(s)
    ensures Integrity(SaveVoice(s, name, audioPath, transcript, transcribe).store)
  {
    var step := SaveVoice(s, name, audioPath, transcript, transcribe);
    if Accepted(name, audioPath) && step.response.Reply? {
      var t := if IsBlank(transcript) then transcribe(audioPath.value).value else transcript;
      StoreVoicePreservesIntegrity(s, Strip(name), audioPath.value, t);
    }
  }

  /** The removal half of a delete keeps every remaining voice backed by
      its file. */
  lemma DropVoicePreservesIntegrity(s: Store, name: string)
    requires Integrity(s) && name in Keys(LoadVoices(s))
    ensures Integrity(DropVoice(s, name, Get(LoadVoices(s), name).value.audio.value))
  {
    var rel := Get(LoadVoices(s), name).value.audio.value;
    var s' := DropVoice(s, name, rel);
    assert OwnerName(rel) == name;
    forall k | Get(LoadVoices(s'), k).Some?
      ensures EntryIntact(k, Get(LoadVoices(s'), k).value, s'.files)
    {
      assert k != name;
      assert Get(LoadVoices(s'), k) == Get(LoadVoices(s), k);
      assert EntryIntact(k, Get(LoadVoices(s), k).value, s.files);
    }
  }

  /** Deleting keeps every remaining voice backed by its file: the removed
      file belonged to the deleted voice alone. */
  lemma DeleteVoicePreservesIntegrity(s: Store, appDir: string, name: Option<string>)
    requires IsAbsolute(appDir) && Integrity(s)
    ensures Integrity(DeleteVoice(s, appDir, name).store)
  {
    var step := DeleteVoice(s, appDir, name);
    if step.response.Reply? && !Falsy(name) && name.value in Keys(LoadVoices(s)) {
      DropVoicePreservesIntegrity(s, name.value);
    }
  }

  /** Re-saving a voice from a source with another extension leaves the
      first copy behind: it stays on disk while no voice refers to it. */
  lemma ResaveWithOtherExtLeavesOrphan(s: Store, name: string, p1: string, p2: string,
                                       t1: string, t2: string, transcribe: string -> Result<string>)
    requires Integrity(s)
    requires !IsBlank(name) && p1 != "" && p2 != "" && !IsBlank(t1) && !IsBlank(t2)
    requires StoredExt(p1) != StoredExt(p2)
    ensures
      var s1 := SaveVoice(s, name, Some(p1), t1, transcribe).store;
      var s2 := SaveVoice(s1, name, Some(p2), t2, transcribe).store;
      var orphan := AudioLocation(Strip(name), p1);
      && orphan in s2.files
      && (forall k :: Get(LoadVoices(s2), k).Some? ==> Get(LoadVoices(s2), k).value.audio != Some(orphan))
  {
    var n := Strip(name);
    var s1 := SaveVoice(s, name, Some(p1), t1, transcribe).store;
    var s2 := SaveVoice(s1, name, Some(p2), t2, transcribe).store;
    var orphan := AudioLocation(n, p1);
    SaveVoicePreservesIntegrity(s, name, Some(p1), t1, transcribe);
    SaveVoicePreservesIntegrity(s1, name, Some(p2), t2, transcribe);
    AudioLocationDependsOnExt(n, p1, p2);
    OwnerNameOfAudioLocation(n, p1);
    forall k | Get(LoadVoices(s2), k).Some?
      ensures Get(LoadVoices(s2), k).value.audio != Some(orphan)
    {
      if k != n {
        assert OwnerName(Get(LoadVoices(s2), k).value.audio.value) == k;
      }
    }
  }
}

=== FILE: voicetable.dfy ===
/** `voices_table_md()`: the Markdown table of saved voices shown on the
    voice-management tab. */
module VoiceTable {
  import opened PyStr
  import opened OrderedMap
  import opened VoiceStore

  /** Shown instead of a table when no voice is saved. */
  const EmptyTable: string := "_No hay voces guardadas._"
  const HeaderLine: string := "| Nombre | Transcripci\U{F3}n |"
  const RuleLine: string := "|--------|---------------|"

  /** Number of transcript characters a row shows. */
  const PreviewLength: nat := 80

  /** `entry.get("transcript", "")[:80]`: the first 80 characters of the
      transcript, all of it when shorter, `""` when the key is absent. */
  function Preview(e: Entry): (p: string)
    ensures p <= e.transcript.GetOr("")
    ensures |p| == if |e.transcript.GetOr("")| < PreviewLength then |e.transcript.GetOr("")| else PreviewLength
  {
    Prefix(e.transcript.GetOr(""), PreviewLength)
  }

  /** One table row, `f"| {name} | {transcript} |"`. */
  function Row(name: string, e: Entry): (r: string)
    ensures |r| == |name| + |Preview(e)| + 7
    ensures r[..|name| + 2] == "| " + name
    ensures r[|name| + 5..|name| + 5 + |Preview(e)|] == Preview(e)
    ensures r[..2] == "| " && r[|name| + 2..|name| + 5] == " | " && r[|r| - 2..] == " |"
  {
    "| " + name + " | " + Preview(e) + " |"
  }

  /** The rows the loop over `voices.items()` appends, one per voice, in
      registry order. */
  function Rows(reg: Bindings<string, Entry>): (rows: seq<string>)
    ensures |rows| == |reg|
    ensures forall i :: 0 <= i < |reg| ==> rows[i] == Row(reg[i].0, reg[i].1)
  {
    if reg == [] then [] else [Row(reg[0].0, reg[0].1)] + Rows(reg[1..])
  }

  /** `voices_table_md()`. The placeholder appears exactly when no voice is
      saved; otherwise the text opens with the header line. */
  function VoicesTableMd(s: Store): (md: string)
    ensures md == EmptyTable <==> LoadVoices(s) == []
    ensures LoadVoices(s) != [] ==> HeaderLine <= md
  {
    var voices := LoadVoices(s);
    if voices == [] then EmptyTable
    else
      var lines := [HeaderLine, RuleLine] + Rows(voices);
      var md := JoinLines(lines);
      assert md[2] == HeaderLine[2] != EmptyTable[2];
      md
  }

  /** When no name and no preview contains a newline, the table text splits
      into the two header lines followed by one row per voice, in registry
      order. */
  lemma TableSplitsIntoRows(s: Store)
    requires LoadVoices(s) != []
    requires forall i :: 0 <= i < |LoadVoices(s)| ==>
      NoNewline(LoadVoices(s)[i].0) && NoNewline(Preview(LoadVoices(s)[i].1))
    ensures |SplitLines(VoicesTableMd(s))| == 2 + |LoadVoices(s)|
    ensures SplitLines(VoicesTableMd(s))[0] == HeaderLine
    ensures SplitLines(VoicesTableMd(s))[1] == RuleLine
    ensures forall i :: 0 <= i < |LoadVoices(s)| ==>
      SplitLines(VoicesTableMd(s))[i + 2] == Row(LoadVoices(s)[i].0, LoadVoices(s)[i].1)
  {
    var voices := LoadVoices(s);
    var lines := [HeaderLine, RuleLine] + Rows(voices);
    forall i | 0 <= i < |lines| ensures NoNewline(lines[i]) {
      if i >= 2 {
        RowNoNewline(voices[i - 2].0, voices[i - 2].1);
      }
    }
    SplitJoinLines(lines);
  }

  /** A row has a newline only where its name or preview has one. */
  lemma RowNoNewline(name: string, e: Entry)
    requires NoNewline(name) && NoNewline(Preview(e))
    ensures NoNewline(Row(name, e))
  {
    var r := Row(name, e);
    forall j | 0 <= j < |r| ensures r[j] != '\n' {
      if j < 2 {
        assert r[j] == r[..2][j];
      } else if j < 2 + |name| {
        assert r[j] == r[..|name| + 2][j] == name[j - 2];
      } else if j < 5 + |name| {
        assert r[j] == r[|name| + 2..|name| + 5][j - |name| - 2];
      } else if j < 5 + |name| + |Preview(e)| {
        assert r[j] == r[|name| + 5..|name| + 5 + |Preview(e)|][j - |name| - 5];
      } else {
        assert r[j] == r[|r| - 2..][j - |r| + 2];
      }
    }
  }
}
